=== FILE: README.md ===
# MbMap layer reconciliation and compare mode

This project models the update cycle of the dashboard's map component
`MbMap` (app/assets/scripts/components/global/mb-map.js). It proves
properties of that model in Dafny. One cycle is one `componentDidUpdate`.
It runs these steps in order:

1. The compare transition. When the `comparing` flag turns on, the cycle
   creates a secondary map surface and a swipe control, and registers a
   one-shot `load` listener. When the flag turns off and a control exists,
   it removes both and clears `mbMapComparingLoaded`.
2. The diff block. It runs when the active-layer list changed (by
   reference) or the flag flipped. It computes `toRemove` and `toAdd` with
   two `filter`/`includes` expressions. It then calls each removed layer's
   handler `hide`, and each added layer's `show`, followed by `update`
   when the handler has one. A missing handler is reported with
   `console.error` and processing goes on.
3. The update pass `updateActiveLayers`. It calls `update` on every active
   layer whose handler has one, in list order.
4. The AOI drawing tool's `update`, when the tool exists.

What the component asks of its collaborators is recorded in order in a
ghost trace of events: `Hide`, `Show`, `Update`, `MissingHandler`,
`CompareOpened`, `CompareClosed` and `AoiUpdate`.

- `layer_diff.dfy` (module `LayerDiff`, pure). The filter diff and its
  properties.
- `layer_dispatch.dfy` (module `LayerDispatch`, pure). Catalog lookup
  (`layers.find`), the handler table (`layerTypes`), and the events each
  `forEach` emits. These are specified by the function `Dispatch`.
- `mb_map.dfy` (module `MbMapModel`, mixed).
  - The class `MbMap` holds the fields the cycle updates in place.
  - Its methods are proved against the specification function
    `CycleEvents`.
  - The lemmas about the cycle are stated on `CycleEvents`.
- `scenarios.dfy` (module `Scenarios`). Worked cycles over three layer
  descriptors (`co2`, `co2-diff`, `nightlights-hd`, all of type
  `raster-timeseries`), and a compare session driven through the class.

Modelling decisions:

- Whether `activeLayers` changed is a boolean input, because the source
  compares arrays by reference. A caller that passes a list with other
  contents must pass `true`. The model thus assumes the parent never
  changes the `activeLayers` array in place: an id pushed into the same
  array would never be shown (line 125's test is false and the previous
  list is that same array) yet would still be updated at line 170.
- The handler table maps a layer type to a `Handler` that records whether
  the type has an `update` function. `hide` and `show` are required of
  every entry.
- Layer lookups that would find no descriptor are excluded by a
  precondition (`CanReconcile`).
- The removed ids are resolved against the new props' catalog
  (`this.props.layers`), as the code does.
- The AOI tool's `update` is called on every cycle whenever the tool
  exists.
- The `false` → `true` branch does not reset `mbMapComparingLoaded`. The
  flag is `false` there only because the class invariant holds: with the
  compare flag off there is no secondary surface, so nothing is loaded.
- The `load` listener is `OnSecondaryLoad`. It acts only while a secondary
  surface exists that has not loaded yet. A surface removed before it
  loads never fires its listener.

## Model

| member | source | states |
|---|---|---|
| LayerDiff.Without | app/assets/scripts/components/global/mb-map.js:126-131 | an id is kept exactly when it is in the first list and not in the second; the result is no longer than its input |
| LayerDiff.WithoutInOrder | app/assets/scripts/components/global/mb-map.js:126-131 | the filter keeps the order of its input (the result is a subsequence) |
| LayerDiff.WithoutCount | app/assets/scripts/components/global/mb-map.js:126-131 | the filter keeps every occurrence of an id it lets through and none of an id it drops |
| LayerDiff.Diff | app/assets/scripts/components/global/mb-map.js:126-131 | toRemove holds exactly the previous ids no longer active, toAdd exactly the next ids not active before, and no id is in both |
| LayerDiff.DiffExact | app/assets/scripts/components/global/mb-map.js:126-131 | toRemove and toAdd are in the order of prev and next and keep each id's multiplicity |
| LayerDiff.DiffOfSameList | app/assets/scripts/components/global/mb-map.js:126-131 | the diff of a list with itself hides nothing and shows nothing |
| LayerDispatch.FindIndex | app/assets/scripts/components/global/mb-map.js:169 | `layers.find` returns the first descriptor with the id: it matches and no earlier one does |
| LayerDispatch.PhaseEmitsOwnKinds | app/assets/scripts/components/global/mb-map.js:133-155 | the hide loop emits only hides and reports, the show loop only shows, updates and reports, the update pass only updates |
| LayerDispatch.HidePhaseExact | app/assets/scripts/components/global/mb-map.js:133-141 | the hide loop emits one event per removed id, in order: its hide, or the report of its missing type, after which the loop goes on |
| LayerDispatch.DispatchCount | app/assets/scripts/components/global/mb-map.js:133-175 | each of the hide loop, the show loop and the update pass (lines 167-175) calls a handler function once per occurrence of an id when the call applies to it, and never otherwise |
| LayerDispatch.PhaseCounts | app/assets/scripts/components/global/mb-map.js:133-155 | per id, the number of hides, shows and updates each loop makes: hides only in the hide loop, shows only in the show loop, updates only where the handler has `update` |
| LayerDispatch.PhaseReportsMissing | app/assets/scripts/components/global/mb-map.js:133-155 | hide and show report the type of every listed id without a handler, and every report names such a type; the update pass reports nothing |
| LayerDispatch.MissingCount | app/assets/scripts/components/global/mb-map.js:133-155 | hide and show report a type once per occurrence of every listed id that resolves to it when it has no handler, and never otherwise; the update pass reports nothing |
| LayerDispatch.ShowThenUpdate | app/assets/scripts/components/global/mb-map.js:146-150 | every show is of a listed id with a handler and is followed immediately by that id's update when the handler has one |
| LayerDispatch.ShowPassInOrder | app/assets/scripts/components/global/mb-map.js:143-155 | the show loop calls `show` in the order of its list: its shows are a subsequence of one show per listed id, which together with the counts fixes them exactly, duplicates included |
| LayerDispatch.UpdatePassInOrder | app/assets/scripts/components/global/mb-map.js:167-175 | the update pass is a subsequence of one update per active id in list order |
| MbMapModel.CycleLayout | app/assets/scripts/components/global/mb-map.js:78-165 | a cycle is the compare transition, the hides, the shows, the update pass and the AOI update, each holding only its own kinds of event |
| MbMapModel.CycleOrder | app/assets/scripts/components/global/mb-map.js:78-165 | compare events come first and only when the flag flipped; no hide follows a show; every show, hide, report and compare event precedes the update pass, which ends the cycle except for the AOI update; the AOI update is last and only when the tool exists |
| MbMapModel.QuietCycle | app/assets/scripts/components/global/mb-map.js:124-175 | with no list change and no flip, the cycle is only the update pass (and the AOI update): each updatable active id is updated once per occurrence, in order |
| MbMapModel.HidePartCounts | app/assets/scripts/components/global/mb-map.js:133-141 | the diff block hides each removed id with a handler once per occurrence, and shows and updates nothing while hiding |
| MbMapModel.ShowPartCounts | app/assets/scripts/components/global/mb-map.js:143-155 | the diff block shows each added id with a handler once per occurrence and updates it at once when it has `update`; it hides nothing while showing |
| MbMapModel.CycleHideCount | app/assets/scripts/components/global/mb-map.js:125-141 | in a cycle, an id is hidden once per occurrence exactly when the diff block runs, the id left the list and its type has a handler |
| MbMapModel.CycleShowCount | app/assets/scripts/components/global/mb-map.js:125-155 | in a cycle, an id is shown once per occurrence exactly when the diff block runs, the id joined the list and its type has a handler; an id that stays active is never shown again |
| MbMapModel.CycleUpdateCount | app/assets/scripts/components/global/mb-map.js:143-175 | an updatable active id is updated once per occurrence by the update pass, and twice when it was just added; no other id is updated |
| MbMapModel.CompareFlipOnly | app/assets/scripts/components/global/mb-map.js:125-131 | flipping the compare flag with the same list enters the diff block with an empty diff: no show, no hide, no report |
| MbMapModel.CycleShowThenUpdate | app/assets/scripts/components/global/mb-map.js:143-159 | in a cycle, every show is of an added id with a handler and is immediately followed by its update when the handler has one |
| MbMapModel.CycleShowsInOrder | app/assets/scripts/components/global/mb-map.js:125-155 | the shows of a cycle are a subsequence of one show per id of `toAdd`, in `toAdd` order (the order of the new list), and there are none when the diff block does not run |
| MbMapModel.CycleReportsMissing | app/assets/scripts/components/global/mb-map.js:133-155 | while the diff block runs, each removed or added id without a handler has its type reported, and each report names the type of such an id |
| MbMapModel.CycleMissingCount | app/assets/scripts/components/global/mb-map.js:125-155 | in a cycle, a type without handler is reported once per occurrence of every removed or added id of that type while the diff block runs, and never otherwise |
| MbMapModel.MbMap.constructor | app/assets/scripts/components/global/mb-map.js:66-71 | the component starts with no secondary surface, no control, not loaded, and (as `initMap` at mb-map.js lines 206-211 sets it up) an AOI tool exactly when the initial props carry an AOI state |
| MbMapModel.MbMap.CompareTransition | app/assets/scripts/components/global/mb-map.js:82-122 | on false → true a fresh surface and a control bound to it; on true → false with a control, neither remains and loaded is cleared; otherwise nothing changes; the surface/control invariant is kept |
| MbMapModel.MbMap.HandleLayer | app/assets/scripts/components/global/mb-map.js:133-175 | the body of one `forEach` iteration of the hide loop, the show loop or the update pass (lines 168-174) appends exactly that id's calls, or the report of its missing type |
| MbMapModel.MbMap.RunPhase | app/assets/scripts/components/global/mb-map.js:133-175 | one `forEach` loop (hide, show, or the update pass at lines 168-174) appends exactly the events its specification function gives for the list |
| MbMapModel.MbMap.ReconcileLayers | app/assets/scripts/components/global/mb-map.js:125-156 | the diff block appends the hides, then the shows, and nothing when it does not run |
| MbMapModel.MbMap.UpdateActiveLayers | app/assets/scripts/components/global/mb-map.js:167-175 | the method appends exactly the update pass over the current props |
| MbMapModel.MbMap.ComponentDidUpdate | app/assets/scripts/components/global/mb-map.js:78-165 | the trace grows by exactly the cycle's events; a fresh, unloaded surface and control after false → true; none and not loaded after true → false; the surface counter grows by one exactly on false → true, so every opening builds a new surface; the invariant is kept |
| MbMapModel.MbMap.OnSecondaryLoad | app/assets/scripts/components/global/mb-map.js:107-110 | a pending load marks the surface loaded and runs exactly one update pass; any other load event changes nothing |
| Scenarios.CatalogIndices | app/assets/scripts/components/common/layers/layer-co2.js:8-10 | each of the three descriptors is found at its own position: `co2` (layer-co2.js lines 8-10), `co2-diff` (layer-co2-diff.js lines 4-7) and `nightlights-hd` (layer-nightlights-hd.js lines 5-7), all of type `raster-timeseries` |
| Scenarios.SwitchCo2ToDiff | app/assets/scripts/components/global/mb-map.js:125-159 | switching from co2 to co2-diff hides co2, shows co2-diff, updates it at once and again in the update pass |
| Scenarios.OpenCompareWithCo2 | app/assets/scripts/components/global/mb-map.js:82-164 | opening compare with co2 active creates surface 0, shows nothing, updates co2 once and then updates the AOI |
| Scenarios.CloseCompareWithCo2 | app/assets/scripts/components/global/mb-map.js:113-159 | closing compare tears down surface 0 and then updates co2 once |
| Scenarios.ShowWithoutHandler | app/assets/scripts/components/global/mb-map.js:143-155 | adding a layer whose type has no handler only reports the type; the update pass stays silent |
| Scenarios.CompareSession | app/assets/scripts/components/global/mb-map.js:82-122 | open compare, let the surface load, close compare: co2 is updated once per cycle and once on load, and no secondary surface remains |
| Scenarios.ReopenSession | app/assets/scripts/components/global/mb-map.js:82-119 | open, close and open again: the second opening builds surface 1, distinct from the torn-down surface 0, with a control bound to it |

## Left out

- Map construction and configuration: creating `mapboxgl.Map` instances,
  `resize`, the navigation and attribution controls, removing the compass
  from the DOM, and the camera synchronisation done by `CompareMbGL`. Each
  surface and the control are abstract values.
- `componentDidMount` defers `initMap` with `setTimeout`. The model starts
  from an initialised component. Turning the compare flag on before
  `initMap` has run dereferences a null `mbMap` in the source (line 84);
  turning it off at that point finds no `compareControl` (line 114) and
  does nothing. The model does not represent the uninitialised state.
- `initMap` beyond the AOI tool (flags, controls and the `map.loaded`
  action), the access token and `localStorage`, `render`, styling and
  `propTypes`. These are I/O or presentation.
- The layer handlers' own behaviour (`show`, `hide`, `update` of each
  layer type) and the arguments passed to them (`this`, the descriptor,
  `prevProps`). Only the call and its target id are recorded. The
  contents of the real `layerTypes` table are not part of this model. The
  scenarios use an example table.
- The AOI drawing tool's internals (`setup`, `update`). Only the call to
  `update` is recorded.
- `exclusiveWith` in the layer descriptors. The component does not
  enforce it: the order is always all hides, then all shows.
- A lookup that finds no descriptor (`layerInfo` undefined). In the hide
  loop (lines 134-135) and in `updateActiveLayers` (lines 169-170) the
  resulting `TypeError` escapes and ends the cycle. In the show loop
  (lines 144-145) it does not: the callback is `async` (line 143), so the
  error only rejects that callback's promise and the loop goes on with the
  next added id. The cycle still throws afterwards, because every added id
  is also active: `updateActiveLayers` reaches the same id at line 170,
  after updating the active ids before it. The model does not represent
  these partial cycles; `CanReconcile` excludes exactly the inputs on which
  `componentDidUpdate` throws.
- The `async` callback of the show loop contains no `await`, so each call
  runs its body synchronously, in list order. `async` also turns any throw
  inside the body (a catalog miss, or a `show` or `update` that throws)
  into a rejected promise that nobody awaits, and the loop goes on. The
  handlers are abstract here and never throw, so the model records only
  the calls. No other asynchrony is modelled beyond the separate `load`
  event.
- `console.error` is recorded as a `MissingHandler` event carrying the
  layer type. The message text is not modelled.

=== FILE: layer_diff.dfy ===
/** The two `filter`/`includes` expressions at the head of the layer
    reconciliation in MbMap.componentDidUpdate: which layer ids are to be
    hidden and which are to be shown, given the previous and the next list of
    active layer ids. */
module LayerDiff {

  type LayerId = string

  /** `xs.filter((l) => !ys.includes(l))`: the elements of `xs` that `ys` does
      not contain, with their multiplicity and in the order of `xs`. */
  function Without(xs: seq<LayerId>, ys: seq<LayerId>): (r: seq<LayerId>)
    ensures forall x :: x in r <==> x in xs && x !in ys
    ensures |r| <= |xs|
    decreases |xs|
  {
    if xs == [] then []
    else
      var init, last := xs[..|xs| - 1], xs[|xs| - 1];
      assert xs == init + [last];
      Without(init, ys) + (if last in ys then [] else [last])
  }

  /** `s` can be obtained from `t` by deleting elements: `t`'s last element is
      dropped, or it is kept as the last element of `s`. */
  ghost predicate IsSubsequence<T>(s: seq<T>, t: seq<T>)
    decreases |t|
  {
    s == [] ||
    (t != [] &&
     (IsSubsequence(s, t[..|t| - 1]) ||
      (s[|s| - 1] == t[|t| - 1] && IsSubsequence(s[..|s| - 1], t[..|t| - 1]))))
  }

  /** The filter keeps the order of its input. */
  lemma {:induction false} WithoutInOrder(xs: seq<LayerId>, ys: seq<LayerId>)
    ensures IsSubsequence(Without(xs, ys), xs)
    decreases |xs|
  {
    if xs != [] {
      var init, last := xs[..|xs| - 1], xs[|xs| - 1];
      var w := Without(init, ys);
      WithoutInOrder(init, ys);
      if last in ys {
        assert Without(xs, ys) == w;
        assert xs[..|xs| - 1] == init;
      } else {
        assert Without(xs, ys) == w + [last];
        assert (w + [last])[..|w|] == w;
      }
    }
  }

  /** The filter keeps every occurrence of an element it lets through and
      none of an element it drops. */
  lemma {:induction false} WithoutCount(xs: seq<LayerId>, ys: seq<LayerId>, x: LayerId)
    ensures multiset(Without(xs, ys))[x] == if x in ys then 0 else multiset(xs)[x]
    decreases |xs|
  {
    if xs != [] {
      var init, last := xs[..|xs| - 1], xs[|xs| - 1];
      assert xs == init + [last];
      WithoutCount(init, ys, x);
      assert multiset(xs) == multiset(init) + multiset([last]);
    }
  }

  /** The per-cycle transition: the ids to hide (`toRemove`, in previous
      order) and the ids to show (`toAdd`, in next order). */
  datatype Transition = Transition(toRemove: seq<LayerId>, toAdd: seq<LayerId>)

  /** Lines 126-131 of mb-map.js. The hidden ids are exactly the previous ids
      that are no longer active, the shown ids exactly the next ids that were
      not active before, and no id is both hidden and shown. */
  function Diff(prev: seq<LayerId>, next: seq<LayerId>): (d: Transition)
    ensures forall id :: id in d.toRemove <==> id in prev && id !in next
    ensures forall id :: id in d.toAdd <==> id in next && id !in prev
    ensures forall id :: id in d.toRemove ==> id !in d.toAdd
  {
    Transition(Without(prev, next), Without(next, prev))
  }

  /** The diff of a list with itself is empty: nothing is hidden or shown. */
  lemma DiffOfSameList(ids: seq<LayerId>)
    ensures Diff(ids, ids).toRemove == []
    ensures Diff(ids, ids).toAdd == []
  {
    WithoutCovered(ids, ids);
  }

  /** Filtering out a list that covers every element leaves nothing. */
  lemma {:induction false} WithoutCovered(xs: seq<LayerId>, ys: seq<LayerId>)
    requires forall x :: x in xs ==> x in ys
    ensures Without(xs, ys) == []
    decreases |xs|
  {
    if xs != [] {
      WithoutCovered(xs[..|xs| - 1], ys);
    }
  }

  /** `toRemove` and `toAdd` are the filters of `prev` and `next` in the
      strong sense: subsequences of their source list that keep every
      occurrence of each element they contain. */
  lemma DiffExact(prev: seq<LayerId>, next: seq<LayerId>, id: LayerId)
    ensures IsSubsequence(Diff(prev, next).toRemove, prev)
    ensures IsSubsequence(Diff(prev, next).toAdd, next)
    ensures multiset(Diff(prev, next).toRemove)[id] == if id in next then 0 else multiset(prev)[id]
    ensures multiset(Diff(prev, next).toAdd)[id] == if id in prev then 0 else multiset(next)[id]
  {
    WithoutInOrder(prev, next);
    WithoutInOrder(next, prev);
    WithoutCount(prev, next, id);
    WithoutCount(next, prev, id);
  }
}

=== FILE: layer_dispatch.dfy ===
/** Resolving a layer id to its descriptor, and dispatching one phase of the
    reconciliation (hide, show or update) over a list of ids through the
    handler table indexed by descriptor type. The calls a phase makes are
    recorded as a sequence of events. */
module LayerDispatch {
  import opened LayerDiff

  type LayerType = string

  /** The part of a layer descriptor the reconciler reads: its `id` and its
      `type`, which selects the handler. */
  datatype LayerInfo = LayerInfo(id: LayerId, layerType: LayerType)

  /** A registered handler always has `show` and `hide`; `update` is optional. */
  datatype Handler = Handler(hasUpdate: bool)

  /** The `layerTypes` table: a type with no entry has no registered handler. */
  type HandlerTable = map<LayerType, Handler>

  /** What one update cycle does, in order: the compare transition, the
      handler calls, the diagnostic for a type without handler, and the AOI
      overlay update. */
  datatype Event =
    | CompareOpened(surface: nat)
    | CompareClosed(surface: nat)
    | Hide(id: LayerId)
    | Show(id: LayerId)
    | Update(id: LayerId)
    | MissingHandler(layerType: LayerType)
    | AoiUpdate

  predicate InCatalog(catalog: seq<LayerInfo>, id: LayerId) {
    exists k :: 0 <= k < |catalog| && catalog[k].id == id
  }

  /** Every id of `ids` has a descriptor in the catalog. */
  predicate AllInCatalog(catalog: seq<LayerInfo>, ids: seq<LayerId>) {
    forall id :: id in ids ==> InCatalog(catalog, id)
  }

  lemma InCatalogTail(catalog: seq<LayerInfo>, id: LayerId)
    requires InCatalog(catalog, id) && catalog[0].id != id
    ensures InCatalog(catalog[1..], id)
  {
    var k :| 0 <= k < |catalog| && catalog[k].id == id;
    assert catalog[1..][k - 1].id == id;
  }

  /** `layers.find((l) => l.id === id)`: the position of the first descriptor
      with that id. */
  function FindIndex(catalog: seq<LayerInfo>, id: LayerId): (k: nat)
    requires InCatalog(catalog, id)
    ensures k < |catalog| && catalog[k].id == id
    ensures forall j :: 0 <= j < k ==> catalog[j].id != id
  {
    if catalog[0].id == id then 0
    else
      InCatalogTail(catalog, id);
      1 + FindIndex(catalog[1..], id)
  }

  function Resolve(catalog: seq<LayerInfo>, id: LayerId): LayerInfo
    requires InCatalog(catalog, id)
  {
    catalog[FindIndex(catalog, id)]
  }

  /** The descriptor's type has a handler. */
  predicate Registered(catalog: seq<LayerInfo>, handlers: HandlerTable, id: LayerId)
    requires InCatalog(catalog, id)
  {
    Resolve(catalog, id).layerType in handlers
  }

  /** The descriptor's type has a handler, and the handler has `update`. */
  predicate Updatable(catalog: seq<LayerInfo>, handlers: HandlerTable, id: LayerId)
    requires InCatalog(catalog, id)
  {
    Registered(catalog, handlers, id) && handlers[Resolve(catalog, id).layerType].hasUpdate
  }

  /** The three loops of a cycle: hide the removed ids, show the added ids,
      update every active id. */
  datatype Phase = HidePhase | ShowPhase | UpdatePhase

  /** What one iteration of a phase's loop does for one id. Hide and show
      report a type without handler and go on; show is followed by update
      when the handler has it; the update pass skips an id silently when its
      handler or its `update` is missing. */
  function Step(phase: Phase, catalog: seq<LayerInfo>, handlers: HandlerTable, id: LayerId): seq<Event>
    requires InCatalog(catalog, id)
  {
    var t := Resolve(catalog, id).layerType;
    match phase
    case HidePhase =>
      if t in handlers then [Hide(id)] else [MissingHandler(t)]
    case ShowPhase =>
      if t in handlers then [Show(id)] + (if handlers[t].hasUpdate then [Update(id)] else [])
      else [MissingHandler(t)]
    case UpdatePhase =>
      if t in handlers && handlers[t].hasUpdate then [Update(id)] else []
  }

  /** The events of a whole phase: one step per id, in list order. */
  function Dispatch(phase: Phase, catalog: seq<LayerInfo>, handlers: HandlerTable, ids: seq<LayerId>): seq<Event>
    requires AllInCatalog(catalog, ids)
    decreases |ids|
  {
    if ids == [] then []
    else Dispatch(phase, catalog, handlers, ids[..|ids| - 1]) + Step(phase, catalog, handlers, ids[|ids| - 1])
  }

  /** Dispatching one more id of a list appends that id's step. */
  lemma DispatchPrefix(phase: Phase, catalog: seq<LayerInfo>, handlers: HandlerTable, ids: seq<LayerId>, i: nat)
    requires AllInCatalog(catalog, ids) && i < |ids|
    ensures AllInCatalog(catalog, ids[..i]) && AllInCatalog(catalog, ids[..i + 1])
    ensures Dispatch(phase, catalog, handlers, ids[..i + 1]) ==
      Dispatch(phase, catalog, handlers, ids[..i]) + Step(phase, catalog, handlers, ids[i])
  {
    assert ids[..i + 1][..i] == ids[..i];
  }

  /** The kinds of event a phase may emit. */
  predicate Emits(phase: Phase, e: Event) {
    match phase
    case HidePhase => e.Hide? || e.MissingHandler?
    case ShowPhase => e.Show? || e.Update? || e.MissingHandler?
    case UpdatePhase => e.Update?
  }

  /** An `Update` event for every id, in list order. */
  function UpdateAll(ids: seq<LayerId>): seq<Event>
  {
    seq(|ids|, k requires 0 <= k < |ids| => Update(ids[k]))
  }

  /** A phase emits only its own kinds of event. */
  lemma {:induction false} PhaseEmitsOwnKinds(phase: Phase, catalog: seq<LayerInfo>, handlers: HandlerTable, ids: seq<LayerId>)
    requires AllInCatalog(catalog, ids)
    ensures forall e :: e in Dispatch(phase, catalog, handlers, ids) ==> Emits(phase, e)
    decreases |ids|
  {
    if ids != [] {
      PhaseEmitsOwnKinds(phase, catalog, handlers, ids[..|ids| - 1]);
    }
  }

  /** The hide phase emits exactly one event per removed id, at that id's
      position: the hide call, or the report of a missing handler, after
      which it goes on with the next id. */
  lemma {:induction false} HidePhaseExact(catalog: seq<LayerInfo>, handlers: HandlerTable, ids: seq<LayerId>)
    requires AllInCatalog(catalog, ids)
    ensures |Dispatch(HidePhase, catalog, handlers, ids)| == |ids|
    ensures forall k :: 0 <= k < |ids| ==>
      Dispatch(HidePhase, catalog, handlers, ids)[k] ==
        if Registered(catalog, handlers, ids[k]) then Hide(ids[k])
        else MissingHandler(Resolve(catalog, ids[k]).layerType)
    decreases |ids|
  {
    if ids != [] {
      var init := ids[..|ids| - 1];
      HidePhaseExact(catalog, handlers, init);
      assert forall k :: 0 <= k < |init| ==> ids[k] == init[k];
    }
  }

  /** Whether a phase calls the handler function that `e` records for the
      id `e` names. */
  predicate Calls(phase: Phase, catalog: seq<LayerInfo>, handlers: HandlerTable, e: Event)
    requires e.Hide? || e.Show? || e.Update?
    requires InCatalog(catalog, e.id)
  {
    if e.Hide? then phase == HidePhase && Registered(catalog, handlers, e.id)
    else if e.Show? then phase == ShowPhase && Registered(catalog, handlers, e.id)
    else phase != HidePhase && Updatable(catalog, handlers, e.id)
  }

  lemma StepCount(phase: Phase, catalog: seq<LayerInfo>, handlers: HandlerTable, x: LayerId, e: Event)
    requires InCatalog(catalog, x)
    requires e.Hide? || e.Show? || e.Update?
    ensures multiset(Step(phase, catalog, handlers, x))[e] == if e.id == x && Calls(phase, catalog, handlers, e) then 1 else 0
  {
    var t := Resolve(catalog, x).layerType;
    var step := Step(phase, catalog, handlers, x);
    if t !in handlers {
      assert e !in step;
    } else if phase == HidePhase {
      assert step == [Hide(x)];
    } else if phase == ShowPhase && handlers[t].hasUpdate {
      assert step == [Show(x), Update(x)];
    } else if phase == ShowPhase {
      assert step == [Show(x)];
    } else if handlers[t].hasUpdate {
      assert step == [Update(x)];
    } else {
      assert step == [];
    }
  }

  /** A phase makes a handler call once per occurrence of the id in the list
      when the call applies to it, and never otherwise. */
  lemma {:induction false} DispatchCount(phase: Phase, catalog: seq<LayerInfo>, handlers: HandlerTable, ids: seq<LayerId>, e: Event)
    requires AllInCatalog(catalog, ids)
    requires e.Hide? || e.Show? || e.Update?
    ensures multiset(Dispatch(phase, catalog, handlers, ids))[e] ==
      if e.id in ids && Calls(phase, catalog, handlers, e) then multiset(ids)[e.id] else 0
    decreases |ids|
  {
    if ids != [] {
      var init, last := ids[..|ids| - 1], ids[|ids| - 1];
      var done, step := Dispatch(phase, catalog, handlers, init), Step(phase, catalog, handlers, last);
      assert ids == init + [last];
      assert multiset(ids)[e.id] == multiset(init)[e.id] + (if e.id == last then 1 else 0);
      assert Dispatch(phase, catalog, handlers, ids) == done + step;
      assert multiset(done + step)[e] == multiset(done)[e] + multiset(step)[e];
      DispatchCount(phase, catalog, handlers, init, e);
      StepCount(phase, catalog, handlers, last, e);
    }
  }

  /** How often each handler call occurs in a phase: every id of the list
      whose handler exists gets its hide or show as many times as it occurs,
      and update as many times as it occurs when the handler has `update`
      (in the update pass, and right after show in the show phase). */
  lemma PhaseCounts(phase: Phase, catalog: seq<LayerInfo>, handlers: HandlerTable, ids: seq<LayerId>, id: LayerId)
    requires AllInCatalog(catalog, ids)
    ensures multiset(Dispatch(phase, catalog, handlers, ids))[Hide(id)] ==
      if id in ids && phase == HidePhase && Registered(catalog, handlers, id) then multiset(ids)[id] else 0
    ensures multiset(Dispatch(phase, catalog, handlers, ids))[Show(id)] ==
      if id in ids && phase == ShowPhase && Registered(catalog, handlers, id) then multiset(ids)[id] else 0
    ensures multiset(Dispatch(phase, catalog, handlers, ids))[Update(id)] ==
      if id in ids && phase != HidePhase && Updatable(catalog, handlers, id) then multiset(ids)[id] else 0
  {
    DispatchCount(phase, catalog, handlers, ids, Hide(id));
    DispatchCount(phase, catalog, handlers, ids, Show(id));
    DispatchCount(phase, catalog, handlers, ids, Update(id));
  }

  /** How many ids of the list resolve to a descriptor of type `t`, counting
      every occurrence. */
  function OfType(catalog: seq<LayerInfo>, ids: seq<LayerId>, t: LayerType): nat
    requires AllInCatalog(catalog, ids)
    decreases |ids|
  {
    if ids == [] then 0
    else OfType(catalog, ids[..|ids| - 1], t) + (if Resolve(catalog, ids[|ids| - 1]).layerType == t then 1 else 0)
  }

  lemma StepMissingCount(phase: Phase, catalog: seq<LayerInfo>, handlers: HandlerTable, x: LayerId, t: LayerType)
    requires InCatalog(catalog, x)
    ensures multiset(Step(phase, catalog, handlers, x))[MissingHandler(t)] ==
      if phase != UpdatePhase && t !in handlers && Resolve(catalog, x).layerType == t then 1 else 0
  {
    var step := Step(phase, catalog, handlers, x);
    if Resolve(catalog, x).layerType !in handlers && phase != UpdatePhase {
      assert step == [MissingHandler(Resolve(catalog, x).layerType)];
    } else {
      assert MissingHandler(t) !in step;
    }
  }

  /** Hide and show report a missing handler once per occurrence of every id
      whose type has none (one `console.error` per iteration), so a type is
      reported as often as such ids resolve to it; the update pass reports
      nothing. */
  lemma {:induction false} MissingCount(phase: Phase, catalog: seq<LayerInfo>, handlers: HandlerTable, ids: seq<LayerId>, t: LayerType)
    requires AllInCatalog(catalog, ids)
    ensures multiset(Dispatch(phase, catalog, handlers, ids))[MissingHandler(t)] ==
      if phase != UpdatePhase && t !in handlers then OfType(catalog, ids, t) else 0
    decreases |ids|
  {
    if ids != [] {
      var init, last := ids[..|ids| - 1], ids[|ids| - 1];
      var done, step := Dispatch(phase, catalog, handlers, init), Step(phase, catalog, handlers, last);
      assert ids == init + [last];
      assert Dispatch(phase, catalog, handlers, ids) == done + step;
      assert multiset(done + step)[MissingHandler(t)] == multiset(done)[MissingHandler(t)] + multiset(step)[MissingHandler(t)];
      MissingCount(phase, catalog, handlers, init, t);
      StepMissingCount(phase, catalog, handlers, last, t);
    }
  }

  /** Hide and show report the type of every id whose type has no handler,
      and every report names such a type of an id in the list; the update
      pass reports nothing. */
  lemma {:induction false} PhaseReportsMissing(phase: Phase, catalog: seq<LayerInfo>, handlers: HandlerTable, ids: seq<LayerId>)
    requires AllInCatalog(catalog, ids)
    ensures forall id :: id in ids && phase != UpdatePhase && !Registered(catalog, handlers, id) ==>
      MissingHandler(Resolve(catalog, id).layerType) in Dispatch(phase, catalog, handlers, ids)
    ensures forall t :: MissingHandler(t) in Dispatch(phase, catalog, handlers, ids) ==>
      phase != UpdatePhase && t !in handlers && exists id :: id in ids && Resolve(catalog, id).layerType == t
    decreases |ids|
  {
    if ids != [] {
      var init, last := ids[..|ids| - 1], ids[|ids| - 1];
      assert ids == init + [last];
      PhaseReportsMissing(phase, catalog, handlers, init);
    }
  }

  /** Every show in `es` is for an id of `ids` whose type has a handler,
      and is immediately followed by its update when that handler has one. */
  ghost predicate ShowsAreFollowedByUpdate(catalog: seq<LayerInfo>, handlers: HandlerTable, ids: seq<LayerId>, es: seq<Event>)
    requires AllInCatalog(catalog, ids)
  {
    forall k :: 0 <= k < |es| && es[k].Show? ==>
      es[k].id in ids && Registered(catalog, handlers, es[k].id) &&
      (Updatable(catalog, handlers, es[k].id) ==> k + 2 <= |es| && es[k..k + 2] == [es[k], Update(es[k].id)])
  }

  /** In the show phase, every show call is for an id of the list whose type
      has a handler, and when that handler has `update`, the very next event
      is the update of the same id. */
  lemma {:induction false} ShowThenUpdate(catalog: seq<LayerInfo>, handlers: HandlerTable, ids: seq<LayerId>)
    requires AllInCatalog(catalog, ids)
    ensures ShowsAreFollowedByUpdate(catalog, handlers, ids, Dispatch(ShowPhase, catalog, handlers, ids))
    decreases |ids|
  {
    if ids != [] {
      var init, last := ids[..|ids| - 1], ids[|ids| - 1];
      var done, step := Dispatch(ShowPhase, catalog, handlers, init), Step(ShowPhase, catalog, handlers, last);
      var es := done + step;
      assert es == Dispatch(ShowPhase, catalog, handlers, ids);
      ShowThenUpdate(catalog, handlers, init);
      forall k | 0 <= k < |es| && es[k].Show?
        ensures es[k].id in ids && Registered(catalog, handlers, es[k].id)
        ensures Updatable(catalog, handlers, es[k].id) ==> k + 2 <= |es| && es[k..k + 2] == [es[k], Update(es[k].id)]
      {
        if k < |done| {
          assert es[k] == done[k];
          assert done[k].id in init;
          if k + 2 <= |done| {
            assert es[k..k + 2] == done[k..k + 2];
          }
        } else {
          assert es[k] == step[k - |done|];
          assert k == |done| && es[k] == Show(last);
        }
      }
    }
  }

  /** The update pass calls `update` in list order on exactly the ids whose
      handler has it: a subsequence of one update per id. */
  lemma {:induction false} UpdatePassInOrder(catalog: seq<LayerInfo>, handlers: HandlerTable, ids: seq<LayerId>)
    requires AllInCatalog(catalog, ids)
    ensures IsSubsequence(Dispatch(UpdatePhase, catalog, handlers, ids), UpdateAll(ids))
    decreases |ids|
  {
    if ids != [] {
      var init, last := ids[..|ids| - 1], ids[|ids| - 1];
      var es := Dispatch(UpdatePhase, catalog, handlers, init);
      var all := UpdateAll(ids);
      UpdatePassInOrder(catalog, handlers, init);
      assert all[..|all| - 1] == UpdateAll(init);
      if Updatable(catalog, handlers, last) {
        assert Dispatch(UpdatePhase, catalog, handlers, ids) == es + [Update(last)];
        assert (es + [Update(last)])[..|es|] == es;
      } else {
        assert Dispatch(UpdatePhase, catalog, handlers, ids) == es;
      }
    }
  }

  /** A `Show` event for every id, in list order. */
  function ShowAll(ids: seq<LayerId>): seq<Event>
  {
    seq(|ids|, k requires 0 <= k < |ids| => Show(ids[k]))
  }

  /** The `Show` events of `es`, in the order they occur. */
  function ShowsOf(es: seq<Event>): seq<Event>
    decreases |es|
  {
    if es == [] then []
    else ShowsOf(es[..|es| - 1]) + (if es[|es| - 1].Show? then [es[|es| - 1]] else [])
  }

  /** Taking the shows distributes over concatenation. */
  lemma {:induction false} ShowsOfAppend(a: seq<Event>, b: seq<Event>)
    ensures ShowsOf(a + b) == ShowsOf(a) + ShowsOf(b)
    decreases |b|
  {
    if b != [] {
      var init := b[..|b| - 1];
      assert (a + b)[..|a + b| - 1] == a + init;
      ShowsOfAppend(a, init);
    } else {
      assert a + b == a;
    }
  }

  /** A sequence without shows has none to take. */
  lemma {:induction false} ShowsOfNone(es: seq<Event>)
    requires forall e :: e in es ==> !e.Show?
    ensures ShowsOf(es) == []
    decreases |es|
  {
    if es != [] {
      assert es[|es| - 1] in es;
      ShowsOfNone(es[..|es| - 1]);
    }
  }

  /** One iteration of the show loop shows its id exactly when the type has
      a handler. */
  lemma StepShows(catalog: seq<LayerInfo>, handlers: HandlerTable, x: LayerId)
    requires InCatalog(catalog, x)
    ensures ShowsOf(Step(ShowPhase, catalog, handlers, x)) == if Registered(catalog, handlers, x) then [Show(x)] else []
  {
    var step := Step(ShowPhase, catalog, handlers, x);
    if Registered(catalog, handlers, x) {
      assert step == [Show(x)] + step[1..];
      ShowsOfAppend([Show(x)], step[1..]);
      ShowsOfNone(step[1..]);
      assert ShowsOf([Show(x)]) == ShowsOf([]) + [Show(x)];
    } else {
      ShowsOfNone(step);
    }
  }

  /** The show loop calls `show` in list order on exactly the ids whose type
      has a handler: its shows are a subsequence of one show per id. */
  lemma {:induction false} ShowPassInOrder(catalog: seq<LayerInfo>, handlers: HandlerTable, ids: seq<LayerId>)
    requires AllInCatalog(catalog, ids)
    ensures IsSubsequence(ShowsOf(Dispatch(ShowPhase, catalog, handlers, ids)), ShowAll(ids))
    decreases |ids|
  {
    if ids != [] {
      var init, last := ids[..|ids| - 1], ids[|ids| - 1];
      var done, step := Dispatch(ShowPhase, catalog, handlers, init), Step(ShowPhase, catalog, handlers, last);
      var all := ShowAll(ids);
      ShowPassInOrder(catalog, handlers, init);
      assert all[..|all| - 1] == ShowAll(init);
      assert Dispatch(ShowPhase, catalog, handlers, ids) == done + step;
      ShowsOfAppend(done, step);
      StepShows(catalog, handlers, last);
      var s := ShowsOf(done) + ShowsOf(step);
      if Registered(catalog, handlers, last) {
        assert s[..|s| - 1] == ShowsOf(done);
      } else {
        assert s == ShowsOf(done);
      }
    }
  }
}

=== FILE: mb_map.dfy ===
/** The map component MbMap: one update cycle (`componentDidUpdate` with
    `updateActiveLayers`) and the compare-mode fields it maintains
    (`mbMapComparing`, `compareControl`, `mbMapComparingLoaded`). The map
    library, the DOM and the layer handlers are not modelled; what the
    component asks of them is recorded, in order, in a ghost trace of events. */
module MbMapModel {
  import opened LayerDiff
  import opened LayerDispatch

  datatype Option<T> = None | Some(value: T)

  /** A secondary map surface, named by the serial number of its creation. */
  datatype Surface = Surface(serial: nat)

  /** The swipe control (`CompareMbGL`), bound to the primary surface and to
      one secondary surface. */
  datatype SwipeControl = SwipeControl(secondary: Surface)

  /** The props a cycle reads: the ordered active layer ids, the compare flag
      and the layer catalog. */
  datatype Props = Props(activeLayers: seq<LayerId>, comparing: bool, layers: seq<LayerInfo>)

  predicate IsCompareEvent(e: Event) {
    e.CompareOpened? || e.CompareClosed?
  }

  /** The diff block runs when the active list changed (by reference) or the
      compare flag flipped. */
  predicate DiffEntered(prev: Props, next: Props, activeChanged: bool) {
    activeChanged || prev.comparing != next.comparing
  }

  /** Every id the cycle looks up has a descriptor in the current catalog:
      the active ids always, the removed ids when the diff block runs. */
  predicate CanReconcile(prev: Props, next: Props, activeChanged: bool) {
    AllInCatalog(next.layers, next.activeLayers) &&
    (DiffEntered(prev, next, activeChanged) ==>
       AllInCatalog(next.layers, Diff(prev.activeLayers, next.activeLayers).toRemove))
  }

  /** The compare transition: a new secondary surface when the flag turns
      on, the teardown of the current one when it turns off and a control
      exists, nothing otherwise. */
  function TransitionEvents(prevComparing: bool, comparing: bool, control: Option<SwipeControl>, serial: nat): seq<Event>
  {
    if comparing == prevComparing then []
    else if comparing then [CompareOpened(serial)]
    else if control.Some? then [CompareClosed(control.value.secondary.serial)]
    else []
  }

  function HidePart(prev: Props, next: Props, activeChanged: bool, handlers: HandlerTable): seq<Event>
    requires CanReconcile(prev, next, activeChanged)
  {
    if DiffEntered(prev, next, activeChanged)
    then Dispatch(HidePhase, next.layers, handlers, Diff(prev.activeLayers, next.activeLayers).toRemove)
    else []
  }

  function ShowPart(prev: Props, next: Props, activeChanged: bool, handlers: HandlerTable): seq<Event>
    requires CanReconcile(prev, next, activeChanged)
  {
    if DiffEntered(prev, next, activeChanged)
    then Dispatch(ShowPhase, next.layers, handlers, Diff(prev.activeLayers, next.activeLayers).toAdd)
    else []
  }

  /** `updateActiveLayers`: update every active id whose handler has it. */
  function UpdatePass(props: Props, handlers: HandlerTable): seq<Event>
    requires AllInCatalog(props.layers, props.activeLayers)
  {
    Dispatch(UpdatePhase, props.layers, handlers, props.activeLayers)
  }

  function AoiTail(hasDraw: bool): seq<Event> {
    if hasDraw then [AoiUpdate] else []
  }

  /** Everything one `componentDidUpdate` asks for, in order. */
  function CycleEvents(prev: Props, next: Props, activeChanged: bool, handlers: HandlerTable,
                       hasDraw: bool, control: Option<SwipeControl>, serial: nat): seq<Event>
    requires CanReconcile(prev, next, activeChanged)
  {
    TransitionEvents(prev.comparing, next.comparing, control, serial)
    + HidePart(prev, next, activeChanged, handlers)
    + ShowPart(prev, next, activeChanged, handlers)
    + UpdatePass(next, handlers)
    + AoiTail(hasDraw)
  }

  /** The order within a cycle: compare events come first and only when the
      flag flipped; no hide follows a show; every show, hide, report and
      compare event precedes the closing update pass, which is followed only
      by the AOI update, and the AOI update is the last event. */
  lemma CycleOrder(prev: Props, next: Props, activeChanged: bool, handlers: HandlerTable,
                   hasDraw: bool, control: Option<SwipeControl>, serial: nat)
    requires CanReconcile(prev, next, activeChanged)
    ensures var c := CycleEvents(prev, next, activeChanged, handlers, hasDraw, control, serial);
      forall i, j :: 0 <= i < j < |c| && IsCompareEvent(c[j]) ==> IsCompareEvent(c[i])
    ensures var c := CycleEvents(prev, next, activeChanged, handlers, hasDraw, control, serial);
      forall i :: 0 <= i < |c| && IsCompareEvent(c[i]) ==> prev.comparing != next.comparing
    ensures var c := CycleEvents(prev, next, activeChanged, handlers, hasDraw, control, serial);
      forall i, j :: 0 <= i < j < |c| && c[i].Show? ==> !c[j].Hide?
    ensures var c := CycleEvents(prev, next, activeChanged, handlers, hasDraw, control, serial);
      var tail := UpdatePass(next, handlers) + AoiTail(hasDraw);
      |tail| <= |c| && c[|c| - |tail|..] == tail &&
      forall i :: 0 <= i < |c| && (c[i].Show? || c[i].Hide? || c[i].MissingHandler? || IsCompareEvent(c[i])) ==>
        i < |c| - |tail|
    ensures var c := CycleEvents(prev, next, activeChanged, handlers, hasDraw, control, serial);
      forall i :: 0 <= i < |c| && c[i].AoiUpdate? ==> hasDraw && i == |c| - 1
  {
    var T := TransitionEvents(prev.comparing, next.comparing, control, serial);
    var H := HidePart(prev, next, activeChanged, handlers);
    var S := ShowPart(prev, next, activeChanged, handlers);
    var U := UpdatePass(next, handlers);
    var A := AoiTail(hasDraw);
    CycleLayout(prev, next, activeChanged, handlers, hasDraw, control, serial);
    PartsInOrder(T, H, S, U, A, prev.comparing != next.comparing, hasDraw);
  }

  /** The layout of any five-part sequence whose parts hold the kinds of
      event a cycle's parts hold. */
  lemma PartsInOrder(T: seq<Event>, H: seq<Event>, S: seq<Event>, U: seq<Event>, A: seq<Event>,
                     flipped: bool, hasDraw: bool)
    requires forall e :: e in T ==> IsCompareEvent(e) && flipped
    requires forall e :: e in H ==> e.Hide? || e.MissingHandler?
    requires forall e :: e in S ==> e.Show? || e.Update? || e.MissingHandler?
    requires forall e :: e in U ==> e.Update?
    requires A == AoiTail(hasDraw)
    ensures var c := T + H + S + U + A;
      (forall i, j :: 0 <= i < j < |c| && IsCompareEvent(c[j]) ==> IsCompareEvent(c[i])) &&
      (forall i :: 0 <= i < |c| && IsCompareEvent(c[i]) ==> flipped) &&
      (forall i, j :: 0 <= i < j < |c| && c[i].Show? ==> !c[j].Hide?) &&
      |U + A| <= |c| && c[|c| - |U + A|..] == U + A &&
      (forall i :: 0 <= i < |c| && (c[i].Show? || c[i].Hide? || c[i].MissingHandler? || IsCompareEvent(c[i])) ==>
         i < |c| - |U + A|) &&
      (forall i :: 0 <= i < |c| && c[i].AoiUpdate? ==> hasDraw && i == |c| - 1)
  {
    var L, R := T + H + S, U + A;
    assert T + H + S + U + A == L + R;
    LeadingPartsInOrder(T, H, S, flipped);
    forall i | 0 <= i < |R|
      ensures R[i].Update? || (R[i].AoiUpdate? && hasDraw && i == |R| - 1)
    {
      if i < |U| {
        assert R[i] == U[i] && U[i] in U;
      }
    }
    assert (L + R)[|L|..] == R;
  }

  /** The compare events, the hides and the shows of a cycle, in that order. */
  lemma LeadingPartsInOrder(T: seq<Event>, H: seq<Event>, S: seq<Event>, flipped: bool)
    requires forall e :: e in T ==> IsCompareEvent(e) && flipped
    requires forall e :: e in H ==> e.Hide? || e.MissingHandler?
    requires forall e :: e in S ==> e.Show? || e.Update? || e.MissingHandler?
    ensures var L := T + H + S;
      (forall i, j :: 0 <= i < j < |L| && IsCompareEvent(L[j]) ==> IsCompareEvent(L[i])) &&
      (forall i :: 0 <= i < |L| && IsCompareEvent(L[i]) ==> flipped) &&
      (forall i, j :: 0 <= i < j < |L| && L[i].Show? ==> !L[j].Hide?) &&
      (forall i :: 0 <= i < |L| ==> !L[i].AoiUpdate?)
  {
    var L := T + H + S;
    forall i | 0 <= i < |L|
      ensures i < |T| <==> IsCompareEvent(L[i])
      ensures IsCompareEvent(L[i]) ==> flipped
      ensures L[i].Hide? ==> i < |T| + |H|
      ensures L[i].Show? ==> |T| + |H| <= i
      ensures !L[i].AoiUpdate?
    {
      if i < |T| {
        assert L[i] == T[i] && T[i] in T;
      } else if i < |T| + |H| {
        assert L[i] == H[i - |T|] && H[i - |T|] in H;
      } else {
        assert L[i] == S[i - |T| - |H|] && S[i - |T| - |H|] in S;
      }
    }
  }

  /** A cycle in which neither the active list nor the compare flag changed
      only replays the update pass (and the AOI update): no compare event, no
      show, no hide, no report, and each active id whose handler has `update`
      is updated once per occurrence, in active-list order. */
  lemma QuietCycle(prev: Props, next: Props, handlers: HandlerTable,
                   hasDraw: bool, control: Option<SwipeControl>, serial: nat)
    requires prev.comparing == next.comparing
    requires CanReconcile(prev, next, false)
    ensures CycleEvents(prev, next, false, handlers, hasDraw, control, serial) == UpdatePass(next, handlers) + AoiTail(hasDraw)
    ensures forall e :: e in CycleEvents(prev, next, false, handlers, hasDraw, control, serial) ==> e.Update? || e.AoiUpdate?
    ensures forall id ::
      multiset(CycleEvents(prev, next, false, handlers, hasDraw, control, serial))[Update(id)] ==
      if id in next.activeLayers && Updatable(next.layers, handlers, id) then multiset(next.activeLayers)[id] else 0
    ensures IsSubsequence(UpdatePass(next, handlers), UpdateAll(next.activeLayers))
  {
    QuietCycleIsUpdatePass(prev, next, handlers, hasDraw, control, serial);
    PhaseEmitsOwnKinds(UpdatePhase, next.layers, handlers, next.activeLayers);
    UpdatePassInOrder(next.layers, handlers, next.activeLayers);
    forall id
      ensures multiset(CycleEvents(prev, next, false, handlers, hasDraw, control, serial))[Update(id)] ==
        if id in next.activeLayers && Updatable(next.layers, handlers, id) then multiset(next.activeLayers)[id] else 0
    {
      CycleUpdateCount(prev, next, false, handlers, hasDraw, control, serial, id);
    }
  }

  /** Without a change the compare transition, the hide part and the show
      part are all empty. */
  lemma QuietCycleIsUpdatePass(prev: Props, next: Props, handlers: HandlerTable,
                               hasDraw: bool, control: Option<SwipeControl>, serial: nat)
    requires prev.comparing == next.comparing
    requires CanReconcile(prev, next, false)
    ensures CycleEvents(prev, next, false, handlers, hasDraw, control, serial) == UpdatePass(next, handlers) + AoiTail(hasDraw)
  {
    var T := TransitionEvents(prev.comparing, next.comparing, control, serial);
    var H := HidePart(prev, next, false, handlers);
    var S := ShowPart(prev, next, false, handlers);
    assert T == [] && H == [] && S == [];
    assert T + H + S == [];
  }

  /** The hide part of a cycle hides each removed id with a handler once per
      occurrence, and shows and updates nothing. */
  lemma HidePartCounts(prev: Props, next: Props, activeChanged: bool, handlers: HandlerTable, id: LayerId)
    requires CanReconcile(prev, next, activeChanged)
    ensures multiset(HidePart(prev, next, activeChanged, handlers))[Hide(id)] ==
      if DiffEntered(prev, next, activeChanged) && id in prev.activeLayers && id !in next.activeLayers &&
         Registered(next.layers, handlers, id)
      then multiset(prev.activeLayers)[id] else 0
    ensures multiset(HidePart(prev, next, activeChanged, handlers))[Show(id)] == 0
    ensures multiset(HidePart(prev, next, activeChanged, handlers))[Update(id)] == 0
  {
    if DiffEntered(prev, next, activeChanged) {
      var d := Diff(prev.activeLayers, next.activeLayers);
      WithoutCount(prev.activeLayers, next.activeLayers, id);
      PhaseCounts(HidePhase, next.layers, handlers, d.toRemove, id);
    }
  }

  /** The show part of a cycle shows each added id with a handler once per
      occurrence, updates it right away when the handler has `update`, and
      hides nothing. */
  lemma ShowPartCounts(prev: Props, next: Props, activeChanged: bool, handlers: HandlerTable, id: LayerId)
    requires CanReconcile(prev, next, activeChanged)
    ensures multiset(ShowPart(prev, next, activeChanged, handlers))[Show(id)] ==
      if DiffEntered(prev, next, activeChanged) && id in next.activeLayers && id !in prev.activeLayers &&
         Registered(next.layers, handlers, id)
      then multiset(next.activeLayers)[id] else 0
    ensures multiset(ShowPart(prev, next, activeChanged, handlers))[Update(id)] ==
      if DiffEntered(prev, next, activeChanged) && id in next.activeLayers && id !in prev.activeLayers &&
         Updatable(next.layers, handlers, id)
      then multiset(next.activeLayers)[id] else 0
    ensures multiset(ShowPart(prev, next, activeChanged, handlers))[Hide(id)] == 0
  {
    if DiffEntered(prev, next, activeChanged) {
      var d := Diff(prev.activeLayers, next.activeLayers);
      WithoutCount(next.activeLayers, prev.activeLayers, id);
      PhaseCounts(ShowPhase, next.layers, handlers, d.toAdd, id);
    }
  }

  /** A handler call or a report of a cycle comes from its hide part, its
      show part or its closing update pass. */
  lemma CycleCountSplit(prev: Props, next: Props, activeChanged: bool, handlers: HandlerTable,
                        hasDraw: bool, control: Option<SwipeControl>, serial: nat, e: Event)
    requires CanReconcile(prev, next, activeChanged)
    requires e.Hide? || e.Show? || e.Update? || e.MissingHandler?
    ensures multiset(CycleEvents(prev, next, activeChanged, handlers, hasDraw, control, serial))[e] ==
      multiset(HidePart(prev, next, activeChanged, handlers))[e] +
      multiset(ShowPart(prev, next, activeChanged, handlers))[e] +
      multiset(UpdatePass(next, handlers))[e]
  {
    CycleLayout(prev, next, activeChanged, handlers, hasDraw, control, serial);
    CountInParts(TransitionEvents(prev.comparing, next.comparing, control, serial),
                 HidePart(prev, next, activeChanged, handlers), ShowPart(prev, next, activeChanged, handlers),
                 UpdatePass(next, handlers), AoiTail(hasDraw), e);
  }

  /** A removed id is hidden once per occurrence when the diff block runs
      and its type has a handler, and never otherwise. */
  lemma CycleHideCount(prev: Props, next: Props, activeChanged: bool, handlers: HandlerTable,
                    hasDraw: bool, control: Option<SwipeControl>, serial: nat, id: LayerId)
    requires CanReconcile(prev, next, activeChanged)
    ensures multiset(CycleEvents(prev, next, activeChanged, handlers, hasDraw, control, serial))[Hide(id)] ==
      if DiffEntered(prev, next, activeChanged) && id in prev.activeLayers && id !in next.activeLayers &&
         Registered(next.layers, handlers, id)
      then multiset(prev.activeLayers)[id] else 0
  {
    CycleCountSplit(prev, next, activeChanged, handlers, hasDraw, control, serial, Hide(id));
    HidePartCounts(prev, next, activeChanged, handlers, id);
    ShowPartCounts(prev, next, activeChanged, handlers, id);
    PhaseCounts(UpdatePhase, next.layers, handlers, next.activeLayers, id);
  }

  /** An added id is shown once per occurrence when the diff block runs and
      its type has a handler, and never otherwise: an id that stays active
      is not shown again. */
  lemma CycleShowCount(prev: Props, next: Props, activeChanged: bool, handlers: HandlerTable,
                    hasDraw: bool, control: Option<SwipeControl>, serial: nat, id: LayerId)
    requires CanReconcile(prev, next, activeChanged)
    ensures multiset(CycleEvents(prev, next, activeChanged, handlers, hasDraw, control, serial))[Show(id)] ==
      if DiffEntered(prev, next, activeChanged) && id in next.activeLayers && id !in prev.activeLayers &&
         Registered(next.layers, handlers, id)
      then multiset(next.activeLayers)[id] else 0
  {
    CycleCountSplit(prev, next, activeChanged, handlers, hasDraw, control, serial, Show(id));
    HidePartCounts(prev, next, activeChanged, handlers, id);
    ShowPartCounts(prev, next, activeChanged, handlers, id);
    PhaseCounts(UpdatePhase, next.layers, handlers, next.activeLayers, id);
  }

  /** An active id whose handler has `update` is updated once per occurrence
      by the closing update pass, and a second time (right after its show)
      when the diff block runs and the id was just added; no other id is
      updated. */
  lemma CycleUpdateCount(prev: Props, next: Props, activeChanged: bool, handlers: HandlerTable,
                    hasDraw: bool, control: Option<SwipeControl>, serial: nat, id: LayerId)
    requires CanReconcile(prev, next, activeChanged)
    ensures multiset(CycleEvents(prev, next, activeChanged, handlers, hasDraw, control, serial))[Update(id)] ==
      if id in next.activeLayers && Updatable(next.layers, handlers, id)
      then (if DiffEntered(prev, next, activeChanged) && id !in prev.activeLayers
            then 2 * multiset(next.activeLayers)[id]
            else multiset(next.activeLayers)[id])
      else 0
  {
    CycleCountSplit(prev, next, activeChanged, handlers, hasDraw, control, serial, Update(id));
    HidePartCounts(prev, next, activeChanged, handlers, id);
    ShowPartCounts(prev, next, activeChanged, handlers, id);
    DispatchCount(UpdatePhase, next.layers, handlers, next.activeLayers, Update(id));
    var m := multiset(next.activeLayers)[id];
    var s := multiset(ShowPart(prev, next, activeChanged, handlers))[Update(id)];
    var u := multiset(UpdatePass(next, handlers))[Update(id)];
    if id in next.activeLayers && Updatable(next.layers, handlers, id) {
      assert u == m;
      if DiffEntered(prev, next, activeChanged) && id !in prev.activeLayers {
        assert s == m;
      } else {
        assert s == 0;
      }
    } else {
      assert s == 0 && u == 0;
    }
  }

  /** While the diff block runs, a type without handler is reported once
      per occurrence of every removed or added id of that type; otherwise
      nothing is reported. */
  lemma CycleMissingCount(prev: Props, next: Props, activeChanged: bool, handlers: HandlerTable,
                          hasDraw: bool, control: Option<SwipeControl>, serial: nat, t: LayerType)
    requires CanReconcile(prev, next, activeChanged)
    ensures multiset(CycleEvents(prev, next, activeChanged, handlers, hasDraw, control, serial))[MissingHandler(t)] ==
      if DiffEntered(prev, next, activeChanged) && t !in handlers
      then OfType(next.layers, Diff(prev.activeLayers, next.activeLayers).toRemove, t) +
           OfType(next.layers, Diff(prev.activeLayers, next.activeLayers).toAdd, t)
      else 0
  {
    CycleCountSplit(prev, next, activeChanged, handlers, hasDraw, control, serial, MissingHandler(t));
    MissingCount(UpdatePhase, next.layers, handlers, next.activeLayers, t);
    if DiffEntered(prev, next, activeChanged) {
      var d := Diff(prev.activeLayers, next.activeLayers);
      MissingCount(HidePhase, next.layers, handlers, d.toRemove, t);
      MissingCount(ShowPhase, next.layers, handlers, d.toAdd, t);
    }
  }

  /** A handler call is counted in the parts of a cycle: the compare
      transition and the AOI update make none. */
  lemma CountInParts(T: seq<Event>, H: seq<Event>, S: seq<Event>, U: seq<Event>, A: seq<Event>, e: Event)
    requires forall x :: x in T ==> IsCompareEvent(x)
    requires forall x :: x in A ==> x.AoiUpdate?
    requires e.Hide? || e.Show? || e.Update? || e.MissingHandler?
    ensures multiset(T + H + S + U + A)[e] == multiset(H)[e] + multiset(S)[e] + multiset(U)[e]
  {
    assert e !in T && e !in A;
  }

  /** Flipping the compare flag with the same active list runs the diff
      block on an empty diff: no show and no hide. */
  lemma CompareFlipOnly(prev: Props, next: Props, activeChanged: bool, handlers: HandlerTable,
                        hasDraw: bool, control: Option<SwipeControl>, serial: nat)
    requires prev.activeLayers == next.activeLayers && prev.comparing != next.comparing
    requires CanReconcile(prev, next, activeChanged)
    ensures DiffEntered(prev, next, activeChanged)
    ensures forall e :: e in CycleEvents(prev, next, activeChanged, handlers, hasDraw, control, serial) ==>
      !e.Show? && !e.Hide? && !e.MissingHandler?
  {
    DiffOfSameList(next.activeLayers);
    CycleLayout(prev, next, activeChanged, handlers, hasDraw, control, serial);
    assert HidePart(prev, next, activeChanged, handlers) == [];
    assert ShowPart(prev, next, activeChanged, handlers) == [];
  }

  /** Within a cycle, every show is for an added id whose type has a handler,
      and is immediately followed by that id's update when the handler has
      one. */
  lemma CycleShowThenUpdate(prev: Props, next: Props, activeChanged: bool, handlers: HandlerTable,
                            hasDraw: bool, control: Option<SwipeControl>, serial: nat)
    requires CanReconcile(prev, next, activeChanged)
    ensures var c := CycleEvents(prev, next, activeChanged, handlers, hasDraw, control, serial);
      forall k :: 0 <= k < |c| && c[k].Show? ==>
        c[k].id in next.activeLayers && c[k].id !in prev.activeLayers &&
        Registered(next.layers, handlers, c[k].id) &&
        (Updatable(next.layers, handlers, c[k].id) ==> k + 2 <= |c| && c[k..k + 2] == [c[k], Update(c[k].id)])
  {
    var T := TransitionEvents(prev.comparing, next.comparing, control, serial);
    var H := HidePart(prev, next, activeChanged, handlers);
    var S := ShowPart(prev, next, activeChanged, handlers);
    var U := UpdatePass(next, handlers);
    var A := AoiTail(hasDraw);
    var c := CycleEvents(prev, next, activeChanged, handlers, hasDraw, control, serial);
    CycleLayout(prev, next, activeChanged, handlers, hasDraw, control, serial);
    ShowPartShows(prev, next, activeChanged, handlers);
    ShowsInMiddle(T, H, S, U, A, c);
    forall k | 0 <= k < |c| && c[k].Show?
      ensures c[k].id in next.activeLayers && c[k].id !in prev.activeLayers
      ensures Registered(next.layers, handlers, c[k].id)
      ensures Updatable(next.layers, handlers, c[k].id) ==> k + 2 <= |c| && c[k..k + 2] == [c[k], Update(c[k].id)]
    {
      var m := k - |T + H|;
      if Updatable(next.layers, handlers, S[m].id) {
        assert c[k..k + 2] == S[m..m + 2];
      }
    }
  }

  /** The shows of a cycle are those of the show loop, which runs over
      `toAdd` in its order: a subsequence of one show per added id, and none
      when the diff block does not run. */
  lemma CycleShowsInOrder(prev: Props, next: Props, activeChanged: bool, handlers: HandlerTable,
                          hasDraw: bool, control: Option<SwipeControl>, serial: nat)
    requires CanReconcile(prev, next, activeChanged)
    ensures var c := CycleEvents(prev, next, activeChanged, handlers, hasDraw, control, serial);
      IsSubsequence(ShowsOf(c), ShowAll(Diff(prev.activeLayers, next.activeLayers).toAdd)) &&
      (!DiffEntered(prev, next, activeChanged) ==> ShowsOf(c) == [])
  {
    var T := TransitionEvents(prev.comparing, next.comparing, control, serial);
    var H := HidePart(prev, next, activeChanged, handlers);
    var S := ShowPart(prev, next, activeChanged, handlers);
    var U := UpdatePass(next, handlers);
    var A := AoiTail(hasDraw);
    CycleLayout(prev, next, activeChanged, handlers, hasDraw, control, serial);
    ShowsOfParts(T, H, S, U, A);
    if DiffEntered(prev, next, activeChanged) {
      ShowPassInOrder(next.layers, handlers, Diff(prev.activeLayers, next.activeLayers).toAdd);
    } else {
      ShowsOfNone(S);
    }
  }

  /** When only the middle part of a five-part sequence can hold shows, the
      shows of the whole are the middle's. */
  lemma ShowsOfParts(T: seq<Event>, H: seq<Event>, S: seq<Event>, U: seq<Event>, A: seq<Event>)
    requires forall e :: e in T ==> IsCompareEvent(e)
    requires forall e :: e in H ==> e.Hide? || e.MissingHandler?
    requires forall e :: e in U ==> e.Update?
    requires forall e :: e in A ==> e.AoiUpdate?
    ensures ShowsOf(T + H + S + U + A) == ShowsOf(S)
  {
    var th := T + H;
    var ths := th + S;
    var thsu := ths + U;
    ShowsOfNone(T);
    ShowsOfNone(H);
    ShowsOfAppend(T, H);
    assert ShowsOf(th) == [];
    ShowsOfAppend(th, S);
    assert ShowsOf(ths) == ShowsOf(S);
    ShowsOfNone(U);
    ShowsOfAppend(ths, U);
    assert ShowsOf(thsu) == ShowsOf(S);
    ShowsOfNone(A);
    ShowsOfAppend(thsu, A);
  }

  /** The parts of a cycle and the kinds of event each part holds. */
  lemma CycleLayout(prev: Props, next: Props, activeChanged: bool, handlers: HandlerTable,
                    hasDraw: bool, control: Option<SwipeControl>, serial: nat)
    requires CanReconcile(prev, next, activeChanged)
    ensures CycleEvents(prev, next, activeChanged, handlers, hasDraw, control, serial) ==
      TransitionEvents(prev.comparing, next.comparing, control, serial) +
      HidePart(prev, next, activeChanged, handlers) + ShowPart(prev, next, activeChanged, handlers) +
      UpdatePass(next, handlers) + AoiTail(hasDraw)
    ensures forall e :: e in TransitionEvents(prev.comparing, next.comparing, control, serial) ==>
      IsCompareEvent(e) && prev.comparing != next.comparing
    ensures forall e :: e in HidePart(prev, next, activeChanged, handlers) ==> e.Hide? || e.MissingHandler?
    ensures forall e :: e in ShowPart(prev, next, activeChanged, handlers) ==> e.Show? || e.Update? || e.MissingHandler?
    ensures forall e :: e in UpdatePass(next, handlers) ==> e.Update?
    ensures forall e :: e in AoiTail(hasDraw) ==> e.AoiUpdate? && hasDraw
  {
    if DiffEntered(prev, next, activeChanged) {
      var d := Diff(prev.activeLayers, next.activeLayers);
      PhaseEmitsOwnKinds(HidePhase, next.layers, handlers, d.toRemove);
      PhaseEmitsOwnKinds(ShowPhase, next.layers, handlers, d.toAdd);
    }
    PhaseEmitsOwnKinds(UpdatePhase, next.layers, handlers, next.activeLayers);
  }

  /** Every show of the show part is of an added id with a handler, and is
      followed right away by its update when the handler has one. */
  lemma ShowPartShows(prev: Props, next: Props, activeChanged: bool, handlers: HandlerTable)
    requires CanReconcile(prev, next, activeChanged)
    ensures var S := ShowPart(prev, next, activeChanged, handlers);
      forall k :: 0 <= k < |S| && S[k].Show? ==>
        S[k].id in next.activeLayers && S[k].id !in prev.activeLayers &&
        Registered(next.layers, handlers, S[k].id) &&
        (Updatable(next.layers, handlers, S[k].id) ==> k + 2 <= |S| && S[k..k + 2] == [S[k], Update(S[k].id)])
  {
    if DiffEntered(prev, next, activeChanged) {
      ShowThenUpdate(next.layers, handlers, Diff(prev.activeLayers, next.activeLayers).toAdd);
    }
  }

  /** Where the shows of a cycle sit: when only the middle part has shows,
      every show of the whole is one of the middle's, and so is the event
      after it when the middle has one. */
  lemma ShowsInMiddle(T: seq<Event>, H: seq<Event>, S: seq<Event>, U: seq<Event>, A: seq<Event>, c: seq<Event>)
    requires forall e :: e in T ==> !e.Show?
    requires forall e :: e in H ==> !e.Show?
    requires forall e :: e in U ==> !e.Show?
    requires forall e :: e in A ==> !e.Show?
    requires c == T + H + S + U + A
    ensures forall k :: 0 <= k < |c| && c[k].Show? ==>
      |T + H| <= k < |T + H| + |S| && c[k] == S[k - |T + H|] &&
      (k + 2 <= |T + H| + |S| ==> c[k..k + 2] == S[k - |T + H|..k - |T + H| + 2])
  {
    var L, R := T + H, U + A;
    assert c == L + S + R;
    forall k | 0 <= k < |c|
      ensures c[k].Show? ==> |L| <= k < |L| + |S|
    {
      if k < |L| {
        assert c[k] == L[k] && L[k] in L;
      } else if k >= |L| + |S| {
        assert c[k] == R[k - |L| - |S|] && R[k - |L| - |S|] in R;
      } else if k + 2 <= |L| + |S| {
        assert c[k..k + 2] == S[k - |L|..k - |L| + 2];
      }
    }
  }

  /** While the diff block runs, every removed or added id whose type has no
      handler is reported, and every report in the cycle names a type without
      handler that some removed or added id has. */
  lemma CycleReportsMissing(prev: Props, next: Props, activeChanged: bool, handlers: HandlerTable,
                            hasDraw: bool, control: Option<SwipeControl>, serial: nat)
    requires CanReconcile(prev, next, activeChanged)
    ensures var c := CycleEvents(prev, next, activeChanged, handlers, hasDraw, control, serial);
      var d := Diff(prev.activeLayers, next.activeLayers);
      DiffEntered(prev, next, activeChanged) ==>
        forall id :: (id in d.toRemove || id in d.toAdd) && !Registered(next.layers, handlers, id) ==>
          MissingHandler(Resolve(next.layers, id).layerType) in c
    ensures var c := CycleEvents(prev, next, activeChanged, handlers, hasDraw, control, serial);
      var d := Diff(prev.activeLayers, next.activeLayers);
      forall t :: MissingHandler(t) in c ==>
        DiffEntered(prev, next, activeChanged) && t !in handlers &&
        exists id :: (id in d.toRemove || id in d.toAdd) && Resolve(next.layers, id).layerType == t
  {
    var T := TransitionEvents(prev.comparing, next.comparing, control, serial);
    var H := HidePart(prev, next, activeChanged, handlers);
    var S := ShowPart(prev, next, activeChanged, handlers);
    var U := UpdatePass(next, handlers);
    var A := AoiTail(hasDraw);
    var c := CycleEvents(prev, next, activeChanged, handlers, hasDraw, control, serial);
    assert c == T + H + S + U + A;
    var d := Diff(prev.activeLayers, next.activeLayers);
    if DiffEntered(prev, next, activeChanged) {
      PhaseReportsMissing(HidePhase, next.layers, handlers, d.toRemove);
      PhaseReportsMissing(ShowPhase, next.layers, handlers, d.toAdd);
    }
    PhaseEmitsOwnKinds(UpdatePhase, next.layers, handlers, next.activeLayers);
  }

  lemma AppendAssoc(a: seq<Event>, b: seq<Event>, c: seq<Event>)
    ensures a + (b + c) == (a + b) + c
  {
  }

  /** Appending the parts of a cycle one by one to a trace appends the
      cycle. */
  lemma CycleTrace(start: seq<Event>, T: seq<Event>, H: seq<Event>, S: seq<Event>, U: seq<Event>, A: seq<Event>)
    ensures start + T + H + S + U + A == start + (T + H + S + U + A)
  {
    AppendAssoc(start, T, H);
    AppendAssoc(start, T + H, S);
    AppendAssoc(start, T + H + S, U);
    AppendAssoc(start, T + H + S + U, A);
  }

  /** The MbMap component, reduced to the state the update cycle reads and
      writes. */
  class MbMap {
    /** The `layerTypes` handler table. */
    const handlers: HandlerTable
    /** Whether `initMap` created the AOI drawing tool (`this.mbDraw`). */
    const hasDraw: bool

    /** `this.props`, as React sets it before `componentDidUpdate`. */
    var props: Props
    var mbMapComparing: Option<Surface>
    var compareControl: Option<SwipeControl>
    var mbMapComparingLoaded: bool
    /** How many secondary surfaces have been created; the serial of the next. */
    var surfacesCreated: nat
    /** The calls made so far, in order. */
    ghost var trace: seq<Event>

    /** A secondary surface exists exactly when a swipe control does, the
        control is bound to it, and only an existing surface can be loaded. */
    ghost predicate CompareInvariant()
      reads this
    {
      (mbMapComparing.Some? <==> compareControl.Some?) &&
      (compareControl.Some? ==> compareControl.value.secondary == mbMapComparing.value) &&
      (mbMapComparingLoaded ==> mbMapComparing.Some?) &&
      (mbMapComparing.Some? ==> mbMapComparing.value.serial < surfacesCreated)
    }

    /** Between cycles, a secondary surface exists only in compare mode. */
    ghost predicate Valid()
      reads this
    {
      CompareInvariant() && (mbMapComparing.Some? ==> props.comparing)
    }

    /** The constructor and `initMap`: no secondary surface, no control; the
        AOI tool is set up when the initial props carry an AOI state. */
    constructor (handlers: HandlerTable, props: Props, hasAoiState: bool)
      ensures Valid()
      ensures this.handlers == handlers && this.props == props && hasDraw == hasAoiState
      ensures mbMapComparing == None && compareControl == None && !mbMapComparingLoaded
      ensures surfacesCreated == 0 && trace == []
    {
      this.handlers := handlers;
      this.props := props;
      hasDraw := hasAoiState;
      mbMapComparing := None;
      compareControl := None;
      mbMapComparingLoaded := false;
      surfacesCreated := 0;
      trace := [];
    }

    /** Lines 82-122 of mb-map.js: on false to true, create the secondary
        surface and the swipe control (the loaded flag is left as it is); on
        true to false, remove both and clear the loaded flag, but only when a
        control exists. */
    method CompareTransition(prevComparing: bool, comparing: bool)
      requires CompareInvariant()
      modifies this`mbMapComparing, this`compareControl, this`mbMapComparingLoaded, this`surfacesCreated, this`trace
      ensures CompareInvariant()
      ensures trace == old(trace) + TransitionEvents(prevComparing, comparing, old(compareControl), old(surfacesCreated))
      ensures comparing == prevComparing || (!comparing && old(compareControl).None?) ==>
        mbMapComparing == old(mbMapComparing) && compareControl == old(compareControl) &&
        mbMapComparingLoaded == old(mbMapComparingLoaded) && surfacesCreated == old(surfacesCreated)
      ensures comparing && !prevComparing ==>
        mbMapComparing == Some(Surface(old(surfacesCreated))) &&
        compareControl == Some(SwipeControl(Surface(old(surfacesCreated)))) &&
        mbMapComparingLoaded == old(mbMapComparingLoaded) && surfacesCreated == old(surfacesCreated) + 1
      ensures !comparing && prevComparing && old(compareControl).Some? ==>
        mbMapComparing == None && compareControl == None && !mbMapComparingLoaded &&
        surfacesCreated == old(surfacesCreated)
    {
      if comparing != prevComparing {
        if comparing {
          var surface := Surface(surfacesCreated);
          surfacesCreated := surfacesCreated + 1;
          mbMapComparing := Some(surface);
          trace := trace + [CompareOpened(surface.serial)];
          compareControl := Some(SwipeControl(surface));
        } else if compareControl.Some? {
          trace := trace + [CompareClosed(compareControl.value.secondary.serial)];
          compareControl := None;
          mbMapComparing := None;
          mbMapComparingLoaded := false;
        }
      }
    }

    /** The body of a phase's `forEach` for one id: resolve the id, look up
        the handler of its type, and call it or report the missing handler. */
    method HandleLayer(phase: Phase, id: LayerId)
      requires InCatalog(props.layers, id)
      modifies this`trace
      ensures trace == old(trace) + Step(phase, props.layers, handlers, id)
    {
      var layerInfo := Resolve(props.layers, id);
      var t := layerInfo.layerType;
      if t in handlers {
        match phase
        case HidePhase =>
          trace := trace + [Hide(id)];
        case ShowPhase =>
          trace := trace + [Show(id)];
          if handlers[t].hasUpdate {
            trace := trace + [Update(id)];
          }
        case UpdatePhase =>
          if handlers[t].hasUpdate {
            trace := trace + [Update(id)];
          }
      } else if phase != UpdatePhase {
        trace := trace + [MissingHandler(t)];
      }
    }

    /** One `forEach` over `ids`. */
    method RunPhase(phase: Phase, ids: seq<LayerId>)
      requires AllInCatalog(props.layers, ids)
      modifies this`trace
      ensures trace == old(trace) + Dispatch(phase, props.layers, handlers, ids)
    {
      for i := 0 to |ids|
        invariant trace == old(trace) + Dispatch(phase, props.layers, handlers, ids[..i])
      {
        DispatchPrefix(phase, props.layers, handlers, ids, i);
        assert ids[i] in ids;
        HandleLayer(phase, ids[i]);
        AppendAssoc(old(trace), Dispatch(phase, props.layers, handlers, ids[..i]), Step(phase, props.layers, handlers, ids[i]));
      }
      assert ids[..|ids|] == ids;
    }

    /** `updateActiveLayers`: the update pass over the current active ids. */
    method UpdateActiveLayers()
      requires AllInCatalog(props.layers, props.activeLayers)
      modifies this`trace
      ensures trace == old(trace) + UpdatePass(props, handlers)
    {
      RunPhase(UpdatePhase, props.activeLayers);
    }

    /** Lines 125-156 of mb-map.js: when the active list changed or the
        compare flag flipped, hide the removed ids, then show the added ids. */
    method ReconcileLayers(prev: Props, activeChanged: bool)
      requires CanReconcile(prev, props, activeChanged)
      modifies this`trace
      ensures trace == old(trace) + HidePart(prev, props, activeChanged, handlers) + ShowPart(prev, props, activeChanged, handlers)
    {
      if activeChanged || props.comparing != prev.comparing {
        var d := Diff(prev.activeLayers, props.activeLayers);
        RunPhase(HidePhase, d.toRemove);
        RunPhase(ShowPhase, d.toAdd);
      }
    }

    /** `componentDidUpdate`, with `next` the new props and `activeChanged`
        the outcome of the reference comparison of the two active lists. The
        trace grows by exactly the cycle's events; the compare fields change
        only when the flag flipped: on false to true a fresh surface and
        control exist and the surface is not loaded yet, on true to false
        neither exists and the loaded flag is clear. */
    method ComponentDidUpdate(next: Props, activeChanged: bool)
      requires Valid()
      requires props.activeLayers != next.activeLayers ==> activeChanged
      requires CanReconcile(props, next, activeChanged)
      modifies this
      ensures Valid()
      ensures props == next
      ensures trace == old(trace) + CycleEvents(old(props), next, activeChanged, handlers, hasDraw,
                                                old(compareControl), old(surfacesCreated))
      ensures next.comparing == old(props.comparing) ==>
        mbMapComparing == old(mbMapComparing) && compareControl == old(compareControl) &&
        mbMapComparingLoaded == old(mbMapComparingLoaded)
      ensures next.comparing && !old(props.comparing) ==>
        old(mbMapComparing).None? &&
        mbMapComparing == Some(Surface(old(surfacesCreated))) &&
        compareControl == Some(SwipeControl(Surface(old(surfacesCreated)))) &&
        !mbMapComparingLoaded
      ensures !next.comparing && old(props.comparing) ==>
        mbMapComparing == None && compareControl == None && !mbMapComparingLoaded
      ensures surfacesCreated == old(surfacesCreated) + (if next.comparing && !old(props.comparing) then 1 else 0)
    {
      var prevProps := props;
      ghost var start, control, serial := trace, compareControl, surfacesCreated;
      props := next;
      CompareTransition(prevProps.comparing, next.comparing);
      ReconcileLayers(prevProps, activeChanged);
      UpdateActiveLayers();
      if hasDraw {
        trace := trace + [AoiUpdate];
      }
      CycleTrace(start, TransitionEvents(prevProps.comparing, next.comparing, control, serial),
                 HidePart(prevProps, next, activeChanged, handlers), ShowPart(prevProps, next, activeChanged, handlers),
                 UpdatePass(next, handlers), AoiTail(hasDraw));
    }

    /** The one-shot `load` listener of the secondary surface: while it is
        pending (a surface exists that has not loaded), it marks the surface
        loaded and runs one update pass; otherwise the event changes nothing. */
    method OnSecondaryLoad()
      requires Valid()
      requires mbMapComparing.Some? && !mbMapComparingLoaded ==> AllInCatalog(props.layers, props.activeLayers)
      modifies this`mbMapComparingLoaded, this`trace
      ensures Valid()
      ensures old(mbMapComparing.Some? && !mbMapComparingLoaded) ==>
        mbMapComparingLoaded && trace == old(trace) + UpdatePass(props, handlers)
      ensures !old(mbMapComparing.Some? && !mbMapComparingLoaded) ==>
        mbMapComparingLoaded == old(mbMapComparingLoaded) && trace == old(trace)
    {
      if mbMapComparing.Some? && !mbMapComparingLoaded {
        mbMapComparingLoaded := true;
        UpdateActiveLayers();
      }
    }
  }
}

=== FILE: scenarios.dfy ===
/** Worked cycles over three of the dashboard's layer descriptors (all of type
    `raster-timeseries`, see common/layers/layer-co2.js, layer-co2-diff.js and
    layer-nightlights-hd.js). The handler table is an example: which
    functions the real `layerTypes` entry for `raster-timeseries` has is not
    part of this model. */
module Scenarios {
  import opened LayerDiff
  import opened LayerDispatch
  import opened MbMapModel

  const Raster: LayerType := "raster-timeseries"

  function Catalog(): seq<LayerInfo> {
    [LayerInfo("co2", Raster), LayerInfo("co2-diff", Raster), LayerInfo("nightlights-hd", Raster)]
  }

  /** A table in which `raster-timeseries` has show, hide and update. */
  function FullTable(): HandlerTable {
    map[Raster := Handler(true)]
  }

  /** Switching from CO2 to the CO2 difference layer hides the old layer,
      shows the new one and updates it at once, then updates it again in the
      closing update pass. */
  lemma SwitchCo2ToDiff()
    ensures CanReconcile(Props(["co2"], false, Catalog()), Props(["co2-diff"], false, Catalog()), true)
    ensures CycleEvents(Props(["co2"], false, Catalog()), Props(["co2-diff"], false, Catalog()), true,
                        FullTable(), false, None, 0) ==
      [Hide("co2"), Show("co2-diff"), Update("co2-diff"), Update("co2-diff")]
  {
    var prev, next := Props(["co2"], false, Catalog()), Props(["co2-diff"], false, Catalog());
    SwitchParts();
    CycleLayout(prev, next, true, FullTable(), false, None, 0);
    assert TransitionEvents(false, false, None, 0) == [] && AoiTail(false) == [];
    Concat4(Hide("co2"), Show("co2-diff"), Update("co2-diff"), Update("co2-diff"));
  }

  lemma Concat4(a: Event, b: Event, c: Event, d: Event)
    ensures [] + [a] + [b, c] + [d] + [] == [a, b, c, d]
  {
  }

  lemma SwitchParts()
    ensures CanReconcile(Props(["co2"], false, Catalog()), Props(["co2-diff"], false, Catalog()), true)
    ensures HidePart(Props(["co2"], false, Catalog()), Props(["co2-diff"], false, Catalog()), true, FullTable()) ==
      [Hide("co2")]
    ensures ShowPart(Props(["co2"], false, Catalog()), Props(["co2-diff"], false, Catalog()), true, FullTable()) ==
      [Show("co2-diff"), Update("co2-diff")]
    ensures UpdatePass(Props(["co2-diff"], false, Catalog()), FullTable()) == [Update("co2-diff")]
  {
    SwitchDiff();
    SwitchDispatch();
  }

  lemma SwitchDiff()
    ensures Diff(["co2"], ["co2-diff"]) == Transition(["co2"], ["co2-diff"])
  {
    assert "co2" != "co2-diff";
    assert Without(["co2"], ["co2-diff"]) == ["co2"];
    assert Without(["co2-diff"], ["co2"]) == ["co2-diff"];
  }

  lemma SwitchDispatch()
    ensures AllInCatalog(Catalog(), ["co2"]) && AllInCatalog(Catalog(), ["co2-diff"])
    ensures Dispatch(HidePhase, Catalog(), FullTable(), ["co2"]) == [Hide("co2")]
    ensures Dispatch(ShowPhase, Catalog(), FullTable(), ["co2-diff"]) == [Show("co2-diff"), Update("co2-diff")]
    ensures Dispatch(UpdatePhase, Catalog(), FullTable(), ["co2-diff"]) == [Update("co2-diff")]
  {
    CatalogIndices();
    assert ["co2"][..0] == [] && ["co2-diff"][..0] == [];
  }

  /** Each descriptor is found at its own position. */
  lemma CatalogIndices()
    ensures AllInCatalog(Catalog(), ["co2", "co2-diff", "nightlights-hd"])
    ensures FindIndex(Catalog(), "co2") == 0
    ensures FindIndex(Catalog(), "co2-diff") == 1
    ensures FindIndex(Catalog(), "nightlights-hd") == 2
  {
    assert Catalog()[0].id == "co2";
    assert Catalog()[1].id == "co2-diff" != "co2";
    assert Catalog()[2].id == "nightlights-hd" != "co2-diff";
  }

  /** Turning compare on with CO2 active opens the secondary surface and, the
      diff being empty, only replays the update pass. */
  lemma OpenCompareWithCo2()
    ensures CanReconcile(Props(["co2"], false, Catalog()), Props(["co2"], true, Catalog()), false)
    ensures CycleEvents(Props(["co2"], false, Catalog()), Props(["co2"], true, Catalog()), false,
                        FullTable(), true, None, 0) ==
      [CompareOpened(0), Update("co2"), AoiUpdate]
  {
    DiffOfSameList(["co2"]);
    assert Catalog()[0].id == "co2";
  }

  /** Without a handler for the type, showing the nightlights layer only
      reports the missing type, and the update pass stays silent. */
  lemma ShowWithoutHandler()
    ensures CanReconcile(Props([], false, Catalog()), Props(["nightlights-hd"], false, Catalog()), true)
    ensures CycleEvents(Props([], false, Catalog()), Props(["nightlights-hd"], false, Catalog()), true,
                        map[], false, None, 0) ==
      [MissingHandler(Raster)]
  {
    var prev, next := Props([], false, Catalog()), Props(["nightlights-hd"], false, Catalog());
    assert Diff(prev.activeLayers, next.activeLayers).toAdd == ["nightlights-hd"];
    assert Catalog()[2].id == "nightlights-hd";
  }

  /** Closing compare with CO2 active tears down secondary surface 0 and
      replays the update pass. */
  lemma CloseCompareWithCo2()
    ensures CanReconcile(Props(["co2"], true, Catalog()), Props(["co2"], false, Catalog()), false)
    ensures CycleEvents(Props(["co2"], true, Catalog()), Props(["co2"], false, Catalog()), false,
                        FullTable(), false, Some(SwipeControl(Surface(0))), 1) ==
      [CompareClosed(0), Update("co2")]
  {
    DiffOfSameList(["co2"]);
    assert Catalog()[0].id == "co2";
  }

  /** A compare session: open compare with CO2 active, let the secondary
      surface load, close compare. CO2 is updated once per cycle and once on
      load, and the component ends without a secondary surface. */
  method CompareSession() returns (m: MbMap)
    ensures m.Valid()
    ensures m.mbMapComparing == None && m.compareControl == None && !m.mbMapComparingLoaded
    ensures m.trace == [CompareOpened(0), Update("co2"), Update("co2"), CompareClosed(0), Update("co2")]
  {
    var closed, open := Props(["co2"], false, Catalog()), Props(["co2"], true, Catalog());
    OpenCompareWithCo2();
    CloseCompareWithCo2();
    CatalogIndices();
    m := new MbMap(FullTable(), closed, false);
    m.ComponentDidUpdate(open, false);
    assert m.trace == [CompareOpened(0), Update("co2")];
    m.OnSecondaryLoad();
    assert m.trace == [CompareOpened(0), Update("co2"), Update("co2")];
    m.ComponentDidUpdate(closed, false);
  }

  /** Opening compare, closing it and opening it again creates a second,
      distinct secondary surface: each opening builds a new one. */
  method ReopenSession() returns (m: MbMap)
    ensures m.Valid()
    ensures m.mbMapComparing == Some(Surface(1)) && m.compareControl == Some(SwipeControl(Surface(1)))
    ensures !m.mbMapComparingLoaded && m.surfacesCreated == 2
  {
    var closed, open := Props(["co2"], false, Catalog()), Props(["co2"], true, Catalog());
    DiffOfSameList(["co2"]);
    CatalogIndices();
    m := new MbMap(FullTable(), closed, false);
    m.ComponentDidUpdate(open, false);
    m.ComponentDidUpdate(closed, false);
    m.ComponentDidUpdate(open, false);
  }
}
